=== FILE: README.md ===
# Organization pages of the SaaS template, modelled in Dafny

This project models the decision logic behind the organization area of a
React Router SaaS template. The logic is written as pure Dafny functions and
proved against independent reference definitions. It covers:

- **Breadcrumbs** (`LayoutHelpers`): collecting the breadcrumbs that route
  loaders publish under the key `breadcrump`.
- **Contact-sales form schema** (`ContactSalesSchemas`): the validation the
  form schema performs. It trims every text field, bounds the lengths,
  checks the intent literal and checks the work email. The result is either
  the trimmed form or the list of every broken rule. The list follows the
  schema's key order, with the work email's format issue before its length
  issue, and names no rule twice.
- **Billing page** (`BillingPage`). It models:
  - the single banner the page shows, with its precedence: cancelled, then
    cancel-at-period-end, then pending downgrade, then free trial;
  - which controls an in-flight post disables;
  - which tier an in-flight plan switch is heading to;
  - whether a billing-email update is in flight;
  - the over-seat-limit flag and when the payment section is shown;
  - what the plan dialog offers;
  - the hand-over between the plan dialog and the cancel dialog, modelled as
    a state machine.
- **Settings sidebar** (`SettingsSidebar`): the sections a role may visit,
  their URLs, and the full-width flag on the settings index.
- **Navigation group** (`NavGroup`): sorting items into links and
  collapsible groups, and the "parent active" rule for groups. That rule
  compares paths exactly, while the links compare them ignoring case. The
  resulting discrepancy is recorded under "Findings".
- **Invite-by-email card** (`InviteByEmailCard`): the roles the card offers,
  its default role, its disabled flags, the intent it submits, and when it
  resets.

Shared modules:

- `Wrappers`: `Option` and `Result`.
- `JsStrings`: strings as UTF-16 code units, ECMAScript `String.prototype.trim`
  (it strips the WhiteSpace and LineTerminator code points of ECMA-262), and JavaScript string truthiness.
- `Memberships`: the membership roles, and the member gate of the billing
  success route. `Memberships.BillingSuccessLoader` states that the loader of
  `billing_.success.tsx` (lines 15-32) answers "not found" if and only if the
  role is member.
- `RouteMatching`: the routing library's default matching rules. A
  navigation link is active by a case-insensitive comparison, with or
  without `end`. A route pattern matched to its end compares
  case-insensitively and accepts trailing slashes.

React hooks become plain inputs to the model:

- `useLocation().pathname` becomes `pathname`.
- `useHydrated()` becomes `hydrated`.
- `useNavigation().formData` becomes `Navigation`.

Intent constants, price lookup keys and the email regular expression are
parameters as well.

## Model

| member | source | states |
|---|---|---|
| LayoutHelpers.FindBreadcrumbs | app/features/organizations/layout/layout-helpers.ts:8-23 | The loop returns the reference collection `Crumbs`, so `CrumbsFollowMatches` and `CollectedIffContributed` apply to it. It never holds more breadcrumbs than there are matches, and none for no matches. |
| LayoutHelpers.Crumbs | app/features/organizations/layout/layout-helpers.ts:13-20 | The reference collection never holds more breadcrumbs than there are matches. |
| LayoutHelpers.CrumbsFollowMatches | app/features/organizations/layout/layout-helpers.ts:13-20 | The k-th breadcrumb comes from the k-th contributing match. Those positions strictly increase, and every contributing match is among them. |
| LayoutHelpers.CollectedIffContributed | app/features/organizations/layout/layout-helpers.ts:14-18 | A breadcrumb is collected if and only if some match contributes it. |
| LayoutHelpers.CrumbsDistribute | app/features/organizations/layout/layout-helpers.ts:13-20 | Collecting over concatenated match lists is concatenating the collections. |
| JsStrings.TrimStart | app/features/billing/contact-sales/contact-sales-schemas.ts:10 | Trimming the start never lengthens a string. |
| JsStrings.TrimEnd | app/features/billing/contact-sales/contact-sales-schemas.ts:10 | Trimming the end never lengthens a string. |
| JsStrings.Trim | app/features/billing/contact-sales/contact-sales-schemas.ts:10 | Trimming never lengthens a string. |
| JsStrings.TrimStartCutsPrefix | app/features/billing/contact-sales/contact-sales-schemas.ts:10 | Trimming the start removes a prefix made only of whitespace and line terminators. What remains is empty or starts with a non-whitespace unit. |
| JsStrings.TrimEndCutsSuffix | app/features/billing/contact-sales/contact-sales-schemas.ts:10 | Trimming the end removes a suffix made only of whitespace and line terminators. What remains is empty or ends with a non-whitespace unit. |
| JsStrings.TrimKeepsInfix | app/features/billing/contact-sales/contact-sales-schemas.ts:10 | The trimmed string is a contiguous slice of the input. Only whitespace lies outside that slice. |
| JsStrings.TrimEmptyIffBlank | app/features/billing/contact-sales/contact-sales-schemas.ts:10-13 | A string trims to empty if and only if it consists only of whitespace. |
| JsStrings.TrimIdempotent | app/features/billing/contact-sales/contact-sales-schemas.ts:10 | Trimming twice is trimming once. |
| ContactSalesSchemas.TrimmedLengthErrors | app/features/billing/contact-sales/contact-sales-schemas.ts:8-47 | The field reports Required if and only if its trimmed length is below 1. It reports TooLong if and only if the field has a maximum (255 or 5000) and its trimmed length exceeds it. It reports nothing else, and at most one issue. |
| ContactSalesSchemas.WorkEmailErrors | app/features/billing/contact-sales/contact-sales-schemas.ts:48-55 | The email check applies to the raw value, and the trimmed value must be non-empty. WorkEmailInvalid is reported if and only if the email check fails. Required is reported if and only if the trimmed value is empty. The field is never TooLong. |
| ContactSalesSchemas.IntentErrors | app/features/billing/contact-sales/contact-sales-schemas.ts:26 | The intent is clean if and only if it equals the contact-sales intent. Otherwise the only issue is IntentInvalid. |
| ContactSalesSchemas.SlotErrorsAreBrokenRules | app/features/billing/contact-sales/contact-sales-schemas.ts:7-56 | Each key's issues are exactly the rules that key breaks, by the reference definition. |
| ContactSalesSchemas.ErrorsOf | app/features/billing/contact-sales/contact-sales-schemas.ts:7-56 | Concatenating per-key issues gives an empty list if and only if every key is clean. |
| ContactSalesSchemas.InErrorsOf | app/features/billing/contact-sales/contact-sales-schemas.ts:7-56 | An issue is in the concatenation if and only if it is one of some listed key's issues. |
| ContactSalesSchemas.SchemaOrderAscending | app/features/billing/contact-sales/contact-sales-schemas.ts:7-56 | The schema's keys are listed by increasing position. |
| ContactSalesSchemas.SlotErrorsRanked | app/features/billing/contact-sales/contact-sales-schemas.ts:48-55 | A key reports its issues in reference order, all within its own band of ranks. For the work email, the format issue comes before the length issue. |
| ContactSalesSchemas.ErrorsOfRanked | app/features/billing/contact-sales/contact-sales-schemas.ts:7-56 | Keys taken in schema order report their issues in strictly increasing reference order. |
| ContactSalesSchemas.SchemaErrorsAreBrokenRules | app/features/billing/contact-sales/contact-sales-schemas.ts:7-56 | The schema as a whole reports a rule if and only if the form breaks it. |
| ContactSalesSchemas.FormErrors | app/features/billing/contact-sales/contact-sales-schemas.ts:7-56 | The form's issue list holds exactly the rules the form breaks. It follows the schema's key order and names no rule twice. |
| ContactSalesSchemas.AdmittedIffNothingBroken | app/features/billing/contact-sales/contact-sales-schemas.ts:7-56 | The direct acceptance condition holds if and only if no rule is broken. The condition is: trimmed lengths within bounds, the intent literal matches, and the email passes and is non-empty after trimming. |
| ContactSalesSchemas.NoErrorsIffAdmitted | app/features/billing/contact-sales/contact-sales-schemas.ts:7-56 | The schema reports no issue if and only if the form satisfies every rule. |
| ContactSalesSchemas.Validate | app/features/billing/contact-sales/contact-sales-schemas.ts:7-56 | Validation succeeds if and only if the form is admitted, and then it yields the trimmed form. On failure the issue list is non-empty, holds exactly the broken rules, and is strictly ordered by the schema's key order. |
| ContactSalesSchemas.BlankFieldIsRequiredNotTooLong | app/features/billing/contact-sales/contact-sales-schemas.ts:8-16 | A whitespace-only field reports Required alone. |
| ContactSalesSchemas.OverlongFieldIsTooLongNotRequired | app/features/billing/contact-sales/contact-sales-schemas.ts:14-16 | A field whose trimmed length exceeds its maximum reports TooLong alone. |
| ContactSalesSchemas.RevalidationIsStable | app/features/billing/contact-sales/contact-sales-schemas.ts:7-56 | Re-validating an accepted, trimmed form accepts it unchanged, given an email check that survives trimming. |
| RouteMatching.MatchingIgnoresCase | app/features/organizations/layout/nav-group.tsx:85-108 | Neither a link's active state nor a match to the end can tell a path from its lower-cased form. |
| RouteMatching.ExactLinkActiveIffSameFolded | app/features/organizations/layout/nav-group.tsx:85 | A link with `end` is active if and only if the path and the target agree up to case. |
| RouteMatching.LowerIdempotent | app/features/organizations/layout/nav-group.tsx:85 | Lower-casing twice is lower-casing once. |
| NavGroup.IsParentActive | app/features/organizations/layout/nav-group.tsx:57-59 | A group is parent-active if and only if some sub-item URL equals the current path character for character. |
| NavGroup.ParentActiveImpliesSomeChildActive | app/features/organizations/layout/nav-group.tsx:57-85 | A parent-active group always has an active sub-link. |
| NavGroup.ParentMissesCaseVariantOfChild | app/features/organizations/layout/nav-group.tsx:57-85 | The converse fails. At "/A", the sub-link to "/a" is active but its group is not parent-active. |
| NavGroup.ParentActiveIgnoringCase | app/features/organizations/layout/nav-group.tsx:57-59 | The corrected parent test holds if and only if one of the group's sub-links is active. |
| NavGroup.ParentTestsAgreeOnLowerCase | app/features/organizations/layout/nav-group.tsx:57-85 | The written parent test implies the corrected one. The two agree when the path and every sub-item URL are already lower case. |
| NavGroup.RenderItem | app/features/organizations/layout/nav-group.tsx:55-108 | An item with `items` becomes a collapsible entry, and any other item stays a link. A collapsible entry's initial openness equals its highlight, which holds if and only if a sub-item URL equals the path. Each sub-entry carries its sub-item's title and URL and is active by the exact (`end`) link rule. A plain link is active by the link rule without `end`. An empty group is never highlighted. A highlighted group has an active sub-entry and passes the corrected parent test. |
| NavGroup.Render | app/features/organizations/layout/nav-group.tsx:55 | There is one entry per item, in order, with titles and kinds preserved. |
| SettingsSidebar.SectionUrlRoundTrip | app/features/organizations/settings/settings-sidebar.tsx:49-70 | Section URLs and reading a section back from a URL are inverse, in both directions. |
| SettingsSidebar.Sections | app/features/organizations/settings/settings-sidebar.tsx:44-74 | General and team members are always listed, in that order. Billing is listed if and only if the role is not member. |
| SettingsSidebar.BillingListedIffBillingRouteServed | app/features/organizations/settings/settings-sidebar.tsx:60-73 | The sidebar offers billing exactly to the roles the billing success route serves. |
| SettingsSidebar.SettingsSidebar | app/features/organizations/settings/settings-sidebar.tsx:23-74 | The sidebar is full width if and only if the path is the settings index up to case, allowing trailing slashes. There is one link per listed section, titled by that section, whose URL reads back as that section. |
| SettingsSidebar.FullWidthIgnoresCase | app/features/organizations/settings/settings-sidebar.tsx:23-37 | Whether the sidebar is full width does not depend on letter case in the path. |
| SettingsSidebar.SectionPageIsNotIndex | app/features/organizations/settings/settings-sidebar.tsx:23-37 | No section page counts as the settings index. |
| SettingsSidebar.SectionLinkActiveIffSame | app/features/organizations/settings/settings-sidebar.tsx:44-74 | At one section's page, the link to a section is active if and only if it is that section. |
| SettingsSidebar.HighlightsCurrentSection | app/features/organizations/settings/settings-sidebar.tsx:44-74 | On a section's page, exactly that section's link is active. |
| InviteByEmailCard.OfferedRoles | app/features/organizations/settings/team-members/invite-by-email-card.tsx:119-133 | Member comes first, and member and admin are always offered. Owner is offered if and only if the current user is an owner. No role is offered twice. |
| InviteByEmailCard.Disabled | app/features/organizations/settings/team-members/invite-by-email-card.tsx:63 | The card is disabled while an invitation is in flight or when the organization is full. An absent flag counts as false. |
| InviteByEmailCard.Render | app/features/organizations/settings/team-members/invite-by-email-card.tsx:62-164 | The fieldset and the submit button are disabled if and only if an invitation is in flight or the organization is full. The role select is also disabled before hydration. The role select offers exactly the roles of `InviteByEmailCard.OfferedRoles`: member and admin, plus owner for owners. The default role is member and is offered. The button submits the invite intent. The spinner shows only while the button is disabled. |
| InviteByEmailCard.AbsentFlagsActAsFalse | app/features/organizations/settings/team-members/invite-by-email-card.tsx:63 | Omitting an optional flag renders the same card as passing false. |
| InviteByEmailCard.ShouldResetForm | app/features/organizations/settings/team-members/invite-by-email-card.tsx:55-60 | The form resets if and only if a non-empty success email is present. |
| BillingPage.SelectBanner | app/features/billing/billing-page.tsx:229-357 | No banner shows if and only if none is called for. Otherwise the banner shown is called for and has the highest precedence among those called for. A pending-downgrade banner carries the subscription's own pending change. |
| BillingPage.IsSubmitting | app/features/billing/billing-page.tsx:179-183 | A submission is in flight when the page is cancelling, keeping the current plan, resuming, or opening invoices. |
| BillingPage.IsSwitchingTo | app/features/billing/billing-page.tsx:187-210 | A switch to a tier is in flight when the posted intent is the switch intent and the posted lookup key is one of that tier's two keys. |
| BillingPage.IsUpdatingBillingEmail | app/features/billing/billing-page.tsx:213-214 | A billing-email update is in flight when the posted intent is the update intent. |
| BillingPage.SwitchTargetIsTierOfKey | app/features/billing/billing-page.tsx:185-210 | With distinct lookup keys, a switch is heading to a tier if and only if the switch intent is in flight with a key of that tier. At most one tier is switched to, and none under another intent. |
| BillingPage.UpdatingEmailExcludesSwitching | app/features/billing/billing-page.tsx:185-214 | A post that updates the billing email is never taken for a plan switch. |
| BillingPage.PlanModalContentFor | app/features/billing/billing-page.tsx:563-578 | The plan dialog offers cancel-or-modify if and only if the subscription is active and not on a free trial. Every other case offers creating a subscription. |
| BillingPage.PlanContentAgreesWithBanner | app/features/billing/billing-page.tsx:229-578 | A cancelled or free-trial banner, whose own dialog offers to subscribe, comes with a plan dialog that also offers to subscribe. A plan dialog offering to cancel or modify comes with no banner, or with the cancel-at-period-end or pending-downgrade banner. |
| BillingPage.RenderBillingPage | app/features/billing/billing-page.tsx:179-622 | The view holds these facts: (1) the banner is the selected one; (2) the resume and keep-plan buttons are disabled by in-flight posts, and the triggers of the banners' dialogs are disabled until hydration; (3) the plan fieldset and cancel-dialog buttons are disabled if and only if a post is in flight; (4) the seat count is flagged if and only if current seats exceed the maximum; (5) view invoices is disabled if and only if the subscription is on a free trial or a post is in flight; (6) the payment section shows if and only if a billing email is present; (7) the switching flags hold exactly when the switch rule does; (8) the email-update flag holds exactly when its intent is in flight. |
| BillingPage.Apply | app/features/billing/billing-page.tsx:166-614 | An unusable control changes nothing. "Manage plan" opens the plan dialog, dismissing a dialog closes only that dialog, "cancel subscription" swaps the plan dialog for the cancel dialog, and "change plan" swaps them back. From a state with at most one dialog open, one event never leaves both dialogs open. The cancel dialog opens only from the cancel-or-modify content of an open plan dialog, which closes. With a post in flight, a closed plan dialog stays closed. |
| BillingPage.ViewGatesDialogEvents | app/features/billing/billing-page.tsx:365-622 | The rendered controls gate the dialog events. With no dialog open, "manage plan" works if and only if the plan fieldset is enabled. In the open cancel dialog, "change plan" works if and only if its buttons are enabled. In the open plan dialog, "cancel subscription" works if and only if the cancel-or-modify content is shown. |
| BillingPage.ChangePlanUndoesCancelClick | app/features/billing/billing-page.tsx:569-614 | With no post in flight, "cancel subscription" followed by "change plan" leaves only the cancel dialog open and then brings the plan dialog back alone. |
| BillingPage.Run | app/features/billing/billing-page.tsx:548-614 | Over any sequence of events, starting with at most one dialog open, the dialogs are never both open. |
| BillingPage.RunConcat | app/features/billing/billing-page.tsx:548-614 | Running two event sequences in turn is running their concatenation. |
| BillingPage.SubmittingKeepsPlanClosed | app/features/billing/billing-page.tsx:365-416 | While posts stay in flight, no sequence of events opens a closed plan dialog. |
| BillingPage.SubmittingSuffixKeepsPlanClosed | app/features/billing/billing-page.tsx:365-614 | Whatever happened before, once the plan dialog is closed it stays closed for as long as posts stay in flight. |

## Findings

| source | as written | input that shows it | evidently intended | confidence | as-written member | corrected member |
|---|---|---|---|---|---|---|
| app/features/organizations/layout/nav-group.tsx:57-59 | A group is parent-active only when a sub-item URL equals the path exactly. Its sub-links (line 85) match ignoring case. | The path "/A" with one sub-item at "/a": the sub-link shows active, but the group is neither highlighted nor opened. | A group is highlighted and opened whenever one of its sub-links is active. | medium, not executed | NavGroup.ParentMissesCaseVariantOfChild | NavGroup.ParentActiveIgnoringCase |

`NavGroup.RenderItem` keeps the written test, because it describes what the
page shows. Its contract relates the result to the corrected test:
`NavGroup.ParentTestsAgreeOnLowerCase` proves the two tests agree on
lower-case paths.

## Left out

- Rendering is not modelled. This covers markup, CSS classes, icons, tooltips, translations, and the `Intl` date formatting of period-end and pending-change dates. Dates are uninterpreted integers.
- BillingPage.RenderBillingPage: seat counts (`currentSeats`, `maxSeats`) are JavaScript numbers, but the model takes them as integers. The seat-limit comparison gives the same answer on integers. Fractional seat counts, NaN and Infinity are not modelled.
- The email regular expression of the schema library is the parameter `isEmail`. `RevalidationIsStable` assumes the check survives trimming. The real expression admits no whitespace, so this holds for it.
- The form schema only sees string fields. A missing or non-string field, which the schema library would report as a type issue, is not modelled.
- The intent constants and the price lookup keys live in files that are not part of this model. They are parameters. `SwitchTargetIsTierOfKey` assumes the six lookup keys are distinct.
- `BillingPage.RenderBillingPage`: in the source, the view-invoices button is disabled only on a free trial. It sits inside the plan-information fieldset, which is disabled while a post is in flight, so the model states the effective disabled state.
- The cancelled and free-trial banners each open their own uncontrolled dialog with the create-subscription content. That dialog is outside the plan/cancel state machine. Only its hydration-gated trigger is modelled.
- The content components of the dialogs are not part of this model. These are the cancel-or-modify content, the create-subscription content, the pending-downgrade banner's body and the billing-email dialog. Only the choice between them and the callbacks the page passes in are modelled.
- `PendingFlags` takes plain booleans. The page's optional flags default to false before they reach the model.
- RouteMatching.Lower: the routing library matches case-insensitively by default. This affects the active state of every link in `NavGroup.RenderItem` and the full-width flag of `SettingsSidebar.SettingsSidebar`. The model folds only the ASCII letters. Other Unicode case mappings, including those that change a string's length, are not modelled. The organization slug is inserted into URLs as given, without percent-encoding.
- The trigger of the billing-email dialog also waits for hydration. That dialog is not part of this model.
- The invite card's email schema and its form library are not part of this model. The reset is modelled as the decision to reset.
- The rest of the repository is not modelled: the contact-sales route, the theme toggle, the analytics client and identifier, the toast host, the not-found page and the projects route.

=== FILE: billing_page.dfy ===
/** The decisions of the organization billing page: which single banner it
    shows, which controls an in-flight submission disables, which plan an
    in-flight switch is heading to, what the plan dialog offers, and how the
    plan and cancel dialogs hand over to each other. */
module BillingPage {
  import opened Wrappers
  import opened JsStrings

  datatype SubscriptionStatus = Active | Inactive | Paused
  datatype Tier = Low | Mid | High
  datatype Interval = Monthly | Annual

  /** A scheduled downgrade; its date is carried as an uninterpreted timestamp. */
  datatype PendingChange = PendingChange(pendingTier: Tier, pendingInterval: Interval, pendingChangeDate: int)

  /** The subscription facts the page decides on. */
  datatype Subscription = Subscription(
    status: SubscriptionStatus,
    cancelAtPeriodEnd: bool,
    pendingChange: Option<PendingChange>,
    isOnFreeTrial: bool)

  // ---------------------------------------------------------------- banner

  datatype Banner =
    | SubscriptionCancelledBanner
    | CancelAtPeriodEndBanner
    | PendingDowngradeBanner(change: PendingChange)
    | FreeTrialBanner

  datatype BannerKind = Cancelled | EndingAtPeriodEnd | PendingDowngrade | FreeTrial

  function KindOf(b: Banner): BannerKind {
    match b
    case SubscriptionCancelledBanner => Cancelled
    case CancelAtPeriodEndBanner => EndingAtPeriodEnd
    case PendingDowngradeBanner(_) => PendingDowngrade
    case FreeTrialBanner => FreeTrial
  }

  /** The condition under which a banner is called for, each on its own. */
  predicate Applies(k: BannerKind, s: Subscription) {
    match k
    case Cancelled => s.status == Inactive
    case EndingAtPeriodEnd => s.cancelAtPeriodEnd
    case PendingDowngrade => s.pendingChange.Some?
    case FreeTrial => s.isOnFreeTrial
  }

  /** Precedence among banners that are called for at once; lower wins. */
  function Rank(k: BannerKind): nat {
    match k
    case Cancelled => 0
    case EndingAtPeriodEnd => 1
    case PendingDowngrade => 2
    case FreeTrial => 3
  }

  /** The banner slot of the page: at most one banner, the called-for banner
      of highest precedence, and none when no banner is called for. A
      pending-downgrade banner shows the subscription's own pending change. */
  function SelectBanner(s: Subscription): (b: Option<Banner>)
    ensures b.None? <==> forall k :: !Applies(k, s)
    ensures b.Some? ==> Applies(KindOf(b.value), s)
    ensures b.Some? ==> forall k :: Applies(k, s) ==> Rank(KindOf(b.value)) <= Rank(k)
    ensures b.Some? && b.value.PendingDowngradeBanner? ==> s.pendingChange == Some(b.value.change)
  {
    if s.status == Inactive then
      assert Applies(Cancelled, s); Some(SubscriptionCancelledBanner)
    else if s.cancelAtPeriodEnd then
      assert Applies(EndingAtPeriodEnd, s); Some(CancelAtPeriodEndBanner)
    else if s.pendingChange.Some? then
      assert Applies(PendingDowngrade, s); Some(PendingDowngradeBanner(s.pendingChange.value))
    else if s.isOnFreeTrial then
      assert Applies(FreeTrial, s); Some(FreeTrialBanner)
    else None
  }

  // ------------------------------------------------------ in-flight requests

  /** The page's in-flight flags; each optional prop defaults to false. */
  datatype PendingFlags = PendingFlags(cancelling: bool, keeping: bool, resuming: bool, viewingInvoices: bool)

  /** `isSubmitting`: any of the page's own form posts is in flight. */
  predicate IsSubmitting(p: PendingFlags) {
    p.cancelling || p.keeping || p.resuming || p.viewingInvoices
  }

  /** The router's navigation state: idle, or submitting some form data. */
  datatype Navigation = Idle | Submitting(formData: map<string, string>)

  /** `navigation.formData?.get(name)`. */
  function FormValue(nav: Navigation, name: string): Option<string> {
    match nav
    case Idle => None
    case Submitting(fd) => if name in fd then Some(fd[name]) else None
  }

  /** The price lookup keys of each tier, one per billing interval. */
  datatype LookupKeys = LookupKeys(
    lowAnnual: string, lowMonthly: string,
    midAnnual: string, midMonthly: string,
    highAnnual: string, highMonthly: string)

  function TierKeys(keys: LookupKeys, t: Tier): seq<string> {
    match t
    case Low => [keys.lowAnnual, keys.lowMonthly]
    case Mid => [keys.midAnnual, keys.midMonthly]
    case High => [keys.highAnnual, keys.highMonthly]
  }

  /** `isSwitchingTo<Tier>`: the submission in flight carries the switch
      intent and one of the tier's lookup keys. */
  predicate IsSwitchingTo(t: Tier, nav: Navigation, switchIntent: string, keys: LookupKeys) {
    && FormValue(nav, "intent") == Some(switchIntent)
    && FormValue(nav, "lookupKey").Some?
    && FormValue(nav, "lookupKey").value in TierKeys(keys, t)
  }

  /** Reference reading of a lookup key: the tier it prices, if any. */
  function TierOfLookupKey(keys: LookupKeys, key: string): Option<Tier> {
    if key in TierKeys(keys, Low) then Some(Low)
    else if key in TierKeys(keys, Mid) then Some(Mid)
    else if key in TierKeys(keys, High) then Some(High)
    else None
  }

  /** No lookup key prices two tiers or two intervals. */
  predicate DistinctKeys(keys: LookupKeys) {
    var all := TierKeys(keys, Low) + TierKeys(keys, Mid) + TierKeys(keys, High);
    forall i, j :: 0 <= i < j < |all| ==> all[i] != all[j]
  }

  /** With distinct keys, a switch is heading to tier `t` exactly when the
      switch intent is in flight with a key that prices `t`; so at most one
      tier is being switched to, and none for any other intent. */
  lemma SwitchTargetIsTierOfKey(t: Tier, nav: Navigation, switchIntent: string, keys: LookupKeys)
    requires DistinctKeys(keys)
    ensures IsSwitchingTo(t, nav, switchIntent, keys) <==>
      && FormValue(nav, "intent") == Some(switchIntent)
      && FormValue(nav, "lookupKey").Some?
      && TierOfLookupKey(keys, FormValue(nav, "lookupKey").value) == Some(t)
    ensures forall u :: IsSwitchingTo(t, nav, switchIntent, keys) && IsSwitchingTo(u, nav, switchIntent, keys) ==> t == u
    ensures FormValue(nav, "intent") != Some(switchIntent) ==> !IsSwitchingTo(t, nav, switchIntent, keys)
  {
    var all := TierKeys(keys, Low) + TierKeys(keys, Mid) + TierKeys(keys, High);
    assert all == [keys.lowAnnual, keys.lowMonthly, keys.midAnnual, keys.midMonthly, keys.highAnnual, keys.highMonthly];
    assert all[0] != all[2] && all[0] != all[3] && all[1] != all[2] && all[1] != all[3];
    assert all[0] != all[4] && all[0] != all[5] && all[1] != all[4] && all[1] != all[5];
    assert all[2] != all[4] && all[2] != all[5] && all[3] != all[4] && all[3] != all[5];
  }

  /** `isUpdatingBillingEmail`. */
  predicate IsUpdatingBillingEmail(nav: Navigation, updateBillingEmailIntent: string) {
    FormValue(nav, "intent") == Some(updateBillingEmailIntent)
  }

  /** One submission cannot both update the billing email and switch plans. */
  lemma UpdatingEmailExcludesSwitching(t: Tier, nav: Navigation, switchIntent: string, updateBillingEmailIntent: string, keys: LookupKeys)
    requires switchIntent != updateBillingEmailIntent
    ensures !(IsUpdatingBillingEmail(nav, updateBillingEmailIntent) && IsSwitchingTo(t, nav, switchIntent, keys))
  {
  }

  // ------------------------------------------------------------- page view

  datatype PlanModalContent = CancelOrModifyContent | CreateSubscriptionContent

  /** The plan dialog offers cancelling or modifying a paid, active
      subscription, and creating a subscription in every other case. */
  function PlanModalContentFor(s: Subscription): (c: PlanModalContent)
    ensures c == CancelOrModifyContent <==> s.status == Active && !s.isOnFreeTrial
    ensures s.status != Active ==> c == CreateSubscriptionContent
  {
    if s.status == Active && !s.isOnFreeTrial then CancelOrModifyContent else CreateSubscriptionContent
  }

  /** The plan dialog and the banner never contradict each other: a banner
      that offers to subscribe (cancelled, free trial) comes with a plan dialog
      that offers to subscribe as well, and a plan dialog offering to cancel or
      modify comes with no banner, or with one about that paid subscription's
      own end or downgrade. */
  lemma PlanContentAgreesWithBanner(s: Subscription)
    ensures SelectBanner(s) == Some(SubscriptionCancelledBanner) || SelectBanner(s) == Some(FreeTrialBanner) ==>
      PlanModalContentFor(s) == CreateSubscriptionContent
    ensures PlanModalContentFor(s) == CancelOrModifyContent ==>
      SelectBanner(s).None? || SelectBanner(s).value.CancelAtPeriodEndBanner? || SelectBanner(s).value.PendingDowngradeBanner?
  {
  }

  datatype BillingProps = BillingProps(
    subscription: Subscription,
    billingEmail: string,
    currentSeats: int,
    maxSeats: int,
    pending: PendingFlags)

  datatype SwitchingFlags = SwitchingFlags(toHigh: bool, toLow: bool, toMid: bool)

  datatype BillingView = BillingView(
    banner: Option<Banner>,
    bannerButtonDisabled: bool,
    planFieldsetDisabled: bool,
    seatsOverLimit: bool,
    viewInvoicesDisabled: bool,
    showsPaymentInformation: bool,
    planModalContent: PlanModalContent,
    switching: SwitchingFlags,
    isUpdatingBillingEmail: bool,
    cancelDialogButtonsDisabled: bool)

  /** The button a banner carries: the cancelled and free-trial banners open
      a dialog and wait for hydration; the resume and keep-plan banners post a
      form and wait for in-flight posts. */
  function BannerButtonDisabled(b: Option<Banner>, submitting: bool, hydrated: bool): bool {
    match b
    case None => false
    case Some(SubscriptionCancelledBanner) => !hydrated
    case Some(FreeTrialBanner) => !hydrated
    case Some(CancelAtPeriodEndBanner) => submitting
    case Some(PendingDowngradeBanner(_)) => submitting
  }

  /** `BillingPage`. The view-invoices button sits inside the plan
      information fieldset, so it is disabled during a free trial and while
      any post is in flight. */
  function RenderBillingPage(
    props: BillingProps, nav: Navigation, hydrated: bool,
    keys: LookupKeys, switchIntent: string, updateBillingEmailIntent: string): (v: BillingView)
    ensures v.banner == SelectBanner(props.subscription)
    ensures v.planFieldsetDisabled <==> IsSubmitting(props.pending)
    ensures v.cancelDialogButtonsDisabled <==> IsSubmitting(props.pending)
    ensures v.seatsOverLimit <==> props.currentSeats > props.maxSeats
    ensures v.viewInvoicesDisabled <==> props.subscription.isOnFreeTrial || IsSubmitting(props.pending)
    ensures v.showsPaymentInformation <==> props.billingEmail != ""
    ensures v.planModalContent == CancelOrModifyContent <==>
      props.subscription.status == Active && !props.subscription.isOnFreeTrial
    ensures v.switching.toHigh <==> IsSwitchingTo(High, nav, switchIntent, keys)
    ensures v.switching.toLow <==> IsSwitchingTo(Low, nav, switchIntent, keys)
    ensures v.switching.toMid <==> IsSwitchingTo(Mid, nav, switchIntent, keys)
    ensures FormValue(nav, "intent") != Some(switchIntent) ==> v.switching == SwitchingFlags(false, false, false)
    ensures v.isUpdatingBillingEmail <==> FormValue(nav, "intent") == Some(updateBillingEmailIntent)
    ensures v.banner.Some? && (v.banner.value.CancelAtPeriodEndBanner? || v.banner.value.PendingDowngradeBanner?) ==>
      (v.bannerButtonDisabled <==> IsSubmitting(props.pending))
    ensures v.banner.Some? && (v.banner.value.SubscriptionCancelledBanner? || v.banner.value.FreeTrialBanner?) ==>
      (v.bannerButtonDisabled <==> !hydrated)
  {
    var submitting := IsSubmitting(props.pending);
    var banner := SelectBanner(props.subscription);
    BillingView(
      banner,
      BannerButtonDisabled(banner, submitting, hydrated),
      submitting,
      props.currentSeats > props.maxSeats,
      props.subscription.isOnFreeTrial || submitting,
      Truthy(props.billingEmail),
      PlanModalContentFor(props.subscription),
      SwitchingFlags(
        IsSwitchingTo(High, nav, switchIntent, keys),
        IsSwitchingTo(Low, nav, switchIntent, keys),
        IsSwitchingTo(Mid, nav, switchIntent, keys)),
      IsUpdatingBillingEmail(nav, updateBillingEmailIntent),
      submitting)
  }

  // ------------------------------------------------------ plan/cancel dialogs

  /** The two controlled dialogs of the page. */
  datatype Modals = Modals(planOpen: bool, cancelOpen: bool)

  const BothClosed := Modals(false, false)

  /** What the user can do to the two dialogs. The dialogs have no trigger of
      their own, so their open-change callback only ever reports a dismissal. */
  datatype ModalEvent =
    | ManagePlanClick          // a "manage plan" button of the plan information card
    | PlanDismissed            // the plan dialog is closed by the user
    | CancelSubscriptionClick  // "cancel subscription" inside the plan dialog
    | CancelDismissed          // the cancel dialog is closed by the user
    | ChangePlanClick          // "change plan" inside the cancel dialog

  /** The page as it stands when an event happens. */
  datatype PageContext = PageContext(subscription: Subscription, isSubmitting: bool)

  /** Whether the control behind an event can be used. An open dialog is
      modal, so the page behind it is inert; the manage-plan buttons sit in the
      fieldset disabled during posts; the cancel link exists only in the
      cancel-or-modify content; "change plan" is disabled during posts. */
  predicate Enabled(ctx: PageContext, m: Modals, e: ModalEvent) {
    match e
    case ManagePlanClick => !m.planOpen && !m.cancelOpen && !ctx.isSubmitting
    case PlanDismissed => m.planOpen
    case CancelSubscriptionClick => m.planOpen && PlanModalContentFor(ctx.subscription) == CancelOrModifyContent
    case CancelDismissed => m.cancelOpen
    case ChangePlanClick => m.cancelOpen && !ctx.isSubmitting
  }

  /** The state setters each handler calls. */
  function Step(m: Modals, e: ModalEvent): Modals {
    match e
    case ManagePlanClick => m.(planOpen := true)
    case PlanDismissed => m.(planOpen := false)
    case CancelSubscriptionClick => Modals(false, true)
    case CancelDismissed => m.(cancelOpen := false)
    case ChangePlanClick => Modals(true, false)
  }

  predicate Exclusive(m: Modals) {
    !(m.planOpen && m.cancelOpen)
  }

  /** One event: a usable control runs its handler, an unusable one does
      nothing. "Manage plan" opens the plan dialog; dismissing a dialog closes
      it alone; "cancel subscription" swaps the plan dialog for the cancel
      dialog and "change plan" swaps them back. The dialogs are never both
      open afterwards if they were not before; the cancel dialog only opens
      from the cancel-or-modify content of the plan dialog; and no post in
      flight lets the plan dialog open. */
  function Apply(ctx: PageContext, m: Modals, e: ModalEvent): (m': Modals)
    ensures !Enabled(ctx, m, e) ==> m' == m
    ensures e == ManagePlanClick && m == BothClosed && !ctx.isSubmitting ==> m' == Modals(true, false)
    ensures e == PlanDismissed ==> !m'.planOpen && m'.cancelOpen == m.cancelOpen
    ensures e == CancelDismissed ==> !m'.cancelOpen && m'.planOpen == m.planOpen
    ensures e == CancelSubscriptionClick && m.planOpen && PlanModalContentFor(ctx.subscription) == CancelOrModifyContent
      ==> m' == Modals(false, true)
    ensures e == ChangePlanClick && m.cancelOpen && !ctx.isSubmitting ==> m' == Modals(true, false)
    ensures Exclusive(m) ==> Exclusive(m')
    ensures m'.cancelOpen && !m.cancelOpen ==>
      e == CancelSubscriptionClick && m.planOpen && !m'.planOpen
      && PlanModalContentFor(ctx.subscription) == CancelOrModifyContent
    ensures ctx.isSubmitting && !m.planOpen ==> !m'.planOpen
  {
    if Enabled(ctx, m, e) then Step(m, e) else m
  }

  /** The page as the dialogs see it once rendered from `props`. */
  function ContextOf(props: BillingProps): PageContext {
    PageContext(props.subscription, IsSubmitting(props.pending))
  }

  /** The rendered controls are what gate the dialog events. With no dialog
      open, "manage plan" is usable exactly when the plan fieldset is enabled;
      in the open cancel dialog, "change plan" is usable exactly when its
      buttons are enabled; in the open plan dialog, "cancel subscription" is
      usable exactly when the dialog shows the cancel-or-modify content. */
  lemma ViewGatesDialogEvents(
    props: BillingProps, nav: Navigation, hydrated: bool,
    keys: LookupKeys, switchIntent: string, updateBillingEmailIntent: string, m: Modals)
    ensures var v := RenderBillingPage(props, nav, hydrated, keys, switchIntent, updateBillingEmailIntent);
      var ctx := ContextOf(props);
      && (!m.planOpen && !m.cancelOpen ==> (v.planFieldsetDisabled <==> !Enabled(ctx, m, ManagePlanClick)))
      && (m.cancelOpen ==> (v.cancelDialogButtonsDisabled <==> !Enabled(ctx, m, ChangePlanClick)))
      && (m.planOpen ==> (v.planModalContent == CancelOrModifyContent <==> Enabled(ctx, m, CancelSubscriptionClick)))
  {
  }

  /** "Change plan" undoes "cancel subscription": with no post in flight, the
      two clicks in turn bring the plan dialog back, by way of the cancel
      dialog alone. */
  lemma ChangePlanUndoesCancelClick(ctx: PageContext)
    requires !ctx.isSubmitting && PlanModalContentFor(ctx.subscription) == CancelOrModifyContent
    ensures Apply(ctx, Modals(true, false), CancelSubscriptionClick) == Modals(false, true)
    ensures Apply(ctx, Apply(ctx, Modals(true, false), CancelSubscriptionClick), ChangePlanClick) == Modals(true, false)
  {
  }

  datatype Transition = Transition(ctx: PageContext, event: ModalEvent)

  /** A sequence of events, each against the page as it stood then. From any
      state with at most one dialog open, the dialogs are never both open. */
  function Run(m: Modals, ts: seq<Transition>): (m': Modals)
    ensures Exclusive(m) ==> Exclusive(m')
    decreases |ts|
  {
    if ts == [] then m else Run(Apply(ts[0].ctx, m, ts[0].event), ts[1..])
  }

  /** Running two event sequences in turn is running their concatenation. */
  lemma {:induction false} RunConcat(m: Modals, a: seq<Transition>, b: seq<Transition>)
    ensures Run(m, a + b) == Run(Run(m, a), b)
    decreases |a|
  {
    if a == [] {
      assert a + b == b;
    } else {
      var m1 := Apply(a[0].ctx, m, a[0].event);
      assert (a + b)[0] == a[0];
      assert (a + b)[1..] == a[1..] + b;
      assert Run(m, a + b) == Run(m1, a[1..] + b);
      assert Run(m, a) == Run(m1, a[1..]);
      RunConcat(m1, a[1..], b);
    }
  }

  /** While posts stay in flight, no sequence of events opens a closed plan
      dialog: neither "manage plan" nor "change plan" can be used. */
  lemma {:induction false} SubmittingKeepsPlanClosed(m: Modals, ts: seq<Transition>)
    requires !m.planOpen
    requires forall i :: 0 <= i < |ts| ==> ts[i].ctx.isSubmitting
    ensures !Run(m, ts).planOpen
    decreases |ts|
  {
    if ts != [] {
      SubmittingKeepsPlanClosed(Apply(ts[0].ctx, m, ts[0].event), ts[1..]);
    }
  }

  /** Whatever happened before, once the plan dialog is closed it stays closed
      for as long as posts stay in flight. */
  lemma SubmittingSuffixKeepsPlanClosed(m: Modals, a: seq<Transition>, b: seq<Transition>)
    requires !Run(m, a).planOpen
    requires forall i :: 0 <= i < |b| ==> b[i].ctx.isSubmitting
    ensures !Run(m, a + b).planOpen
  {
    RunConcat(m, a, b);
    SubmittingKeepsPlanClosed(Run(m, a), b);
  }
}

=== FILE: contact_sales_schemas.dfy ===
/** The contact-sales form schema as a validator: each field is checked by its
    own rules, every failing rule contributes its message key in the order
    the schema lists the fields, and a form passing every rule is returned
    with its text fields trimmed. */
module ContactSalesSchemas {
  import opened Wrappers
  import opened JsStrings

  /** The text fields the schema trims and bounds. */
  datatype Field = CompanyName | FirstName | LastName | Message | PhoneNumber | WorkEmail

  /** What a rejected form reports. `Required` and `TooLong` carry the field
      whose trimmed value is too short or too long; each stands for the
      schema's message `billing:contactSales.<field>Required` or
      `…<field>TooLong`, `WorkEmailInvalid` for `…workEmailInvalid`, and
      `IntentInvalid` for the literal check's own issue, which has no custom
      message. */
  datatype ErrorKey =
    | Required(field: Field)
    | TooLong(field: Field)
    | WorkEmailInvalid
    | IntentInvalid

  /** Every field's trimmed value must have at least this many code units. */
  const MinLength: nat := 1

  /** The upper bound on a field's trimmed length, where the schema sets one. */
  function MaxLength(f: Field): Option<nat> {
    match f
    case CompanyName | FirstName | LastName => Some(255)
    case Message => Some(5000)
    case PhoneNumber | WorkEmail => None
  }

  /** The submitted form: every field is a string. */
  datatype ContactSalesForm = ContactSalesForm(
    companyName: JsString,
    firstName: JsString,
    intent: JsString,
    lastName: JsString,
    message: JsString,
    phoneNumber: JsString,
    workEmail: JsString)

  /** A trimmed length the field's rules admit. */
  predicate LengthAdmitted(f: Field, n: nat) {
    MinLength <= n && (MaxLength(f).Some? ==> n <= MaxLength(f).value)
  }

  /** `.trim().min(1, …).max(n, …)`: both length checks look at the trimmed
      value, and each adds its own key when it fails; as the minimum is below
      every maximum, at most one of them fails. */
  function TrimmedLengthErrors(f: Field, raw: JsString): (errs: seq<ErrorKey>)
    ensures errs == [] <==> LengthAdmitted(f, |Trim(raw)|)
    ensures Required(f) in errs <==> |Trim(raw)| < MinLength
    ensures TooLong(f) in errs <==> MaxLength(f).Some? && |Trim(raw)| > MaxLength(f).value
    ensures forall e :: e in errs ==> e == Required(f) || e == TooLong(f)
    ensures |errs| <= 1
  {
    var t := Trim(raw);
    (if |t| < MinLength then [Required(f)] else [])
    + (match MaxLength(f)
       case Some(m) => if |t| > m then [TooLong(f)] else []
       case None => [])
  }

  /** `z.email(…).trim().min(1, …)`: the address format is checked on the
      value as submitted, then the trimmed value must be non-empty. */
  function WorkEmailErrors(raw: JsString, isEmail: JsString -> bool): (errs: seq<ErrorKey>)
    ensures errs == [] <==> isEmail(raw) && |Trim(raw)| >= MinLength
    ensures WorkEmailInvalid in errs <==> !isEmail(raw)
    ensures Required(WorkEmail) in errs <==> |Trim(raw)| < MinLength
    ensures TooLong(WorkEmail) !in errs
  {
    (if isEmail(raw) then [] else [WorkEmailInvalid]) + TrimmedLengthErrors(WorkEmail, raw)
  }

  /** `z.literal(CONTACT_SALES_INTENT)`. */
  function IntentErrors(intent: JsString, contactSalesIntent: JsString): (errs: seq<ErrorKey>)
    ensures errs == [] <==> intent == contactSalesIntent
    ensures errs != [] ==> errs == [IntentInvalid]
  {
    if intent == contactSalesIntent then [] else [IntentInvalid]
  }

  /** A position in the schema: one of the text fields, or the intent tag. */
  datatype Slot = Text(field: Field) | Intent

  /** The schema's keys in declaration order; the errors of a form are
      reported in this order. */
  const SchemaOrder: seq<Slot> :=
    [Text(CompanyName), Text(FirstName), Intent, Text(LastName), Text(Message), Text(PhoneNumber), Text(WorkEmail)]

  /** The submitted value of a text field. */
  function Raw(form: ContactSalesForm, f: Field): JsString {
    match f
    case CompanyName => form.companyName
    case FirstName => form.firstName
    case LastName => form.lastName
    case Message => form.message
    case PhoneNumber => form.phoneNumber
    case WorkEmail => form.workEmail
  }

  /** The errors of one position of the schema. */
  function SlotErrors(form: ContactSalesForm, slot: Slot, contactSalesIntent: JsString, isEmail: JsString -> bool): seq<ErrorKey> {
    match slot
    case Intent => IntentErrors(form.intent, contactSalesIntent)
    case Text(WorkEmail) => WorkEmailErrors(form.workEmail, isEmail)
    case Text(f) => TrimmedLengthErrors(f, Raw(form, f))
  }

  /** The position of the schema an error is reported for. */
  function SlotOf(e: ErrorKey): Slot {
    match e
    case Required(f) => Text(f)
    case TooLong(f) => Text(f)
    case WorkEmailInvalid => Text(WorkEmail)
    case IntentInvalid => Intent
  }

  /** Reference statement of when the schema reports a key: the rule the key
      names is broken by the form. */
  predicate Breaks(form: ContactSalesForm, contactSalesIntent: JsString, isEmail: JsString -> bool, e: ErrorKey) {
    match e
    case Required(f) => |Trim(Raw(form, f))| < MinLength
    case TooLong(f) => MaxLength(f).Some? && |Trim(Raw(form, f))| > MaxLength(f).value
    case WorkEmailInvalid => !isEmail(form.workEmail)
    case IntentInvalid => form.intent != contactSalesIntent
  }

  /** Each position reports only its own keys, and reports exactly the keys of
      the rules the form breaks there. */
  lemma SlotErrorsAreBrokenRules(form: ContactSalesForm, slot: Slot, contactSalesIntent: JsString, isEmail: JsString -> bool, e: ErrorKey)
    ensures e in SlotErrors(form, slot, contactSalesIntent, isEmail) ==> SlotOf(e) == slot
    ensures e in SlotErrors(form, SlotOf(e), contactSalesIntent, isEmail) <==> Breaks(form, contactSalesIntent, isEmail, e)
  {
    match slot
    case Intent =>
    case Text(WorkEmail) =>
    case Text(f) =>
      assert TooLong(WorkEmail) !in SlotErrors(form, slot, contactSalesIntent, isEmail);
  }

  /** The errors of the positions `slots`, in that order. */
  function ErrorsOf(form: ContactSalesForm, slots: seq<Slot>, contactSalesIntent: JsString, isEmail: JsString -> bool)
    : (errs: seq<ErrorKey>)
    ensures errs == [] <==> forall i :: 0 <= i < |slots| ==> SlotErrors(form, slots[i], contactSalesIntent, isEmail) == []
  {
    if slots == [] then []
    else SlotErrors(form, slots[0], contactSalesIntent, isEmail) + ErrorsOf(form, slots[1..], contactSalesIntent, isEmail)
  }

  /** An error is reported for `slots` exactly when its own position is among
      them and reports it. */
  lemma {:induction false} InErrorsOf(form: ContactSalesForm, slots: seq<Slot>, contactSalesIntent: JsString, isEmail: JsString -> bool, e: ErrorKey)
    ensures e in ErrorsOf(form, slots, contactSalesIntent, isEmail) <==>
      SlotOf(e) in slots && e in SlotErrors(form, SlotOf(e), contactSalesIntent, isEmail)
  {
    if slots != [] {
      InErrorsOf(form, slots[1..], contactSalesIntent, isEmail, e);
      SlotErrorsAreBrokenRules(form, slots[0], contactSalesIntent, isEmail, e);
      assert ErrorsOf(form, slots, contactSalesIntent, isEmail)
        == SlotErrors(form, slots[0], contactSalesIntent, isEmail) + ErrorsOf(form, slots[1..], contactSalesIntent, isEmail);
      assert slots == [slots[0]] + slots[1..];
    }
  }

  /** The index of a position in `SchemaOrder`. */
  function SlotIndex(slot: Slot): nat {
    match slot
    case Text(CompanyName) => 0
    case Text(FirstName) => 1
    case Intent => 2
    case Text(LastName) => 3
    case Text(Message) => 4
    case Text(PhoneNumber) => 5
    case Text(WorkEmail) => 6
  }

  /** Reference order of the report: by the position of the error's key in
      the schema and, within the work email, the format issue before the
      length issue, since the format check runs first. */
  function IssueRank(e: ErrorKey): nat {
    2 * SlotIndex(SlotOf(e)) + (if e == Required(WorkEmail) then 1 else 0)
  }

  /** Each error stands strictly after the one before it: the report follows
      the reference order and names no error twice. */
  predicate RankAscending(errs: seq<ErrorKey>) {
    forall i, j :: 0 <= i < j < |errs| ==> IssueRank(errs[i]) < IssueRank(errs[j])
  }

  predicate SlotsAscending(slots: seq<Slot>) {
    forall i, j :: 0 <= i < j < |slots| ==> SlotIndex(slots[i]) < SlotIndex(slots[j])
  }

  /** The schema order lists its positions by increasing index. */
  lemma SchemaOrderAscending()
    ensures SlotsAscending(SchemaOrder)
  {
    assert forall k :: 0 <= k < |SchemaOrder| ==> SlotIndex(SchemaOrder[k]) == k;
  }

  /** One position reports its errors in rank order, all of its own rank band. */
  lemma SlotErrorsRanked(form: ContactSalesForm, slot: Slot, contactSalesIntent: JsString, isEmail: JsString -> bool)
    ensures RankAscending(SlotErrors(form, slot, contactSalesIntent, isEmail))
    ensures forall e :: e in SlotErrors(form, slot, contactSalesIntent, isEmail) ==>
      2 * SlotIndex(slot) <= IssueRank(e) < 2 * SlotIndex(slot) + 2
  {
    forall e | e in SlotErrors(form, slot, contactSalesIntent, isEmail)
      ensures 2 * SlotIndex(slot) <= IssueRank(e) < 2 * SlotIndex(slot) + 2
    {
      SlotErrorsAreBrokenRules(form, slot, contactSalesIntent, isEmail, e);
    }
  }

  /** Positions taken in schema order report their errors in rank order, all
      at or after the band of the first position. */
  lemma {:induction false} ErrorsOfRanked(form: ContactSalesForm, slots: seq<Slot>, contactSalesIntent: JsString, isEmail: JsString -> bool)
    requires SlotsAscending(slots)
    ensures RankAscending(ErrorsOf(form, slots, contactSalesIntent, isEmail))
    ensures forall e :: e in ErrorsOf(form, slots, contactSalesIntent, isEmail) ==>
      |slots| > 0 && 2 * SlotIndex(slots[0]) <= IssueRank(e)
    decreases |slots|
  {
    if slots != [] {
      var a := SlotErrors(form, slots[0], contactSalesIntent, isEmail);
      var b := ErrorsOf(form, slots[1..], contactSalesIntent, isEmail);
      assert SlotsAscending(slots[1..]) by {
        forall i, j | 0 <= i < j < |slots[1..]|
          ensures SlotIndex(slots[1..][i]) < SlotIndex(slots[1..][j])
        {
          assert slots[1..][i] == slots[i + 1] && slots[1..][j] == slots[j + 1];
        }
      }
      ErrorsOfRanked(form, slots[1..], contactSalesIntent, isEmail);
      SlotErrorsRanked(form, slots[0], contactSalesIntent, isEmail);
      assert forall e :: e in b ==> 2 * SlotIndex(slots[0]) + 2 <= IssueRank(e) by {
        forall e | e in b
          ensures 2 * SlotIndex(slots[0]) + 2 <= IssueRank(e)
        {
          assert SlotIndex(slots[0]) < SlotIndex(slots[1]);
        }
      }
      assert a + b == ErrorsOf(form, slots, contactSalesIntent, isEmail);
      RankedConcat(a, b, 2 * SlotIndex(slots[0]), 2 * SlotIndex(slots[0]) + 2);
    }
  }

  /** Two ranked reports, the first wholly below the second's bound, join
      into one ranked report that keeps the first's lower bound. */
  lemma RankedConcat(a: seq<ErrorKey>, b: seq<ErrorKey>, lo: int, mid: int)
    requires lo <= mid && RankAscending(a) && RankAscending(b)
    requires forall e :: e in a ==> lo <= IssueRank(e) < mid
    requires forall e :: e in b ==> mid <= IssueRank(e)
    ensures RankAscending(a + b)
    ensures forall e :: e in a + b ==> lo <= IssueRank(e)
  {
    var ab := a + b;
    forall i, j | 0 <= i < j < |ab|
      ensures IssueRank(ab[i]) < IssueRank(ab[j])
    {
      if j < |a| {
        assert ab[i] == a[i] && ab[j] == a[j];
      } else if i >= |a| {
        assert ab[i] == b[i - |a|] && ab[j] == b[j - |a|];
      } else {
        assert ab[i] in a && ab[j] == b[j - |a|] && ab[j] in b;
      }
    }
    forall e | e in ab
      ensures lo <= IssueRank(e)
    {
      if e in a {} else { assert e in b; }
    }
  }

  /** All errors of a form, in the order the schema declares its keys. */
  function FormErrors(form: ContactSalesForm, contactSalesIntent: JsString, isEmail: JsString -> bool): (errs: seq<ErrorKey>)
    ensures forall e :: e in errs <==> Breaks(form, contactSalesIntent, isEmail, e)
    ensures forall i, j :: 0 <= i < j < |errs| ==> IssueRank(errs[i]) < IssueRank(errs[j])
  {
    assert RankAscending(ErrorsOf(form, SchemaOrder, contactSalesIntent, isEmail)) by {
      SchemaOrderAscending();
      ErrorsOfRanked(form, SchemaOrder, contactSalesIntent, isEmail);
    }
    SchemaErrorsAreBrokenRules(form, contactSalesIntent, isEmail);
    ErrorsOf(form, SchemaOrder, contactSalesIntent, isEmail)
  }

  /** The schema as a whole reports exactly the rules the form breaks. */
  lemma SchemaErrorsAreBrokenRules(form: ContactSalesForm, contactSalesIntent: JsString, isEmail: JsString -> bool)
    ensures forall e :: e in ErrorsOf(form, SchemaOrder, contactSalesIntent, isEmail) <==> Breaks(form, contactSalesIntent, isEmail, e)
  {
    forall e ensures e in ErrorsOf(form, SchemaOrder, contactSalesIntent, isEmail) <==> Breaks(form, contactSalesIntent, isEmail, e) {
      InErrorsOf(form, SchemaOrder, contactSalesIntent, isEmail, e);
      SlotErrorsAreBrokenRules(form, SlotOf(e), contactSalesIntent, isEmail, e);
      SchemaListsEverySlot(SlotOf(e));
    }
  }

  /** Every position of the schema is listed in its key order. */
  lemma SchemaListsEverySlot(slot: Slot)
    ensures slot in SchemaOrder
  {
    assert SchemaOrder[SlotIndex(slot)] == slot;
  }

  /** Reference statement of which forms the schema admits, rule by rule. */
  predicate Admits(form: ContactSalesForm, contactSalesIntent: JsString, isEmail: JsString -> bool) {
    && 1 <= |Trim(form.companyName)| <= 255
    && 1 <= |Trim(form.firstName)| <= 255
    && form.intent == contactSalesIntent
    && 1 <= |Trim(form.lastName)| <= 255
    && 1 <= |Trim(form.message)| <= 5000
    && 1 <= |Trim(form.phoneNumber)|
    && isEmail(form.workEmail) && 1 <= |Trim(form.workEmail)|
  }

  /** A form is admitted exactly when it breaks no rule. */
  lemma AdmittedIffNothingBroken(form: ContactSalesForm, contactSalesIntent: JsString, isEmail: JsString -> bool)
    ensures Admits(form, contactSalesIntent, isEmail) <==> forall e :: !Breaks(form, contactSalesIntent, isEmail, e)
  {
    if !Admits(form, contactSalesIntent, isEmail) {
      var e :=
        if |Trim(form.companyName)| < 1 then Required(CompanyName)
        else if |Trim(form.companyName)| > 255 then TooLong(CompanyName)
        else if |Trim(form.firstName)| < 1 then Required(FirstName)
        else if |Trim(form.firstName)| > 255 then TooLong(FirstName)
        else if form.intent != contactSalesIntent then IntentInvalid
        else if |Trim(form.lastName)| < 1 then Required(LastName)
        else if |Trim(form.lastName)| > 255 then TooLong(LastName)
        else if |Trim(form.message)| < 1 then Required(Message)
        else if |Trim(form.message)| > 5000 then TooLong(Message)
        else if |Trim(form.phoneNumber)| < 1 then Required(PhoneNumber)
        else if !isEmail(form.workEmail) then WorkEmailInvalid
        else Required(WorkEmail);
      assert Breaks(form, contactSalesIntent, isEmail, e);
    }
  }

  /** The parsed output: text fields trimmed, the intent tag kept as is. */
  function Trimmed(form: ContactSalesForm): ContactSalesForm {
    ContactSalesForm(
      Trim(form.companyName), Trim(form.firstName), form.intent, Trim(form.lastName),
      Trim(form.message), Trim(form.phoneNumber), Trim(form.workEmail))
  }

  /** `contactSalesFormSchema`: succeeds exactly on the forms every rule
      admits, returning them trimmed; otherwise fails with a non-empty list of
      keys, holding exactly the keys of the rules the form breaks. */
  function Validate(form: ContactSalesForm, contactSalesIntent: JsString, isEmail: JsString -> bool)
    : (r: Result<ContactSalesForm, seq<ErrorKey>>)
    ensures r.Success? <==> Admits(form, contactSalesIntent, isEmail)
    ensures r.Success? ==> r.value == Trimmed(form)
    ensures r.Failure? ==> |r.error| > 0
    ensures r.Failure? ==> forall e :: e in r.error <==> Breaks(form, contactSalesIntent, isEmail, e)
    ensures r.Failure? ==> forall i, j :: 0 <= i < j < |r.error| ==> IssueRank(r.error[i]) < IssueRank(r.error[j])
  {
    var errs := FormErrors(form, contactSalesIntent, isEmail);
    NoErrorsIffAdmitted(form, contactSalesIntent, isEmail);
    if errs == [] then Success(Trimmed(form)) else Failure(errs)
  }

  /** The schema reports nothing exactly for the forms every rule admits. */
  lemma NoErrorsIffAdmitted(form: ContactSalesForm, contactSalesIntent: JsString, isEmail: JsString -> bool)
    ensures FormErrors(form, contactSalesIntent, isEmail) == [] <==> Admits(form, contactSalesIntent, isEmail)
  {
    var errs := FormErrors(form, contactSalesIntent, isEmail);
    AdmittedIffNothingBroken(form, contactSalesIntent, isEmail);
    if errs != [] {
      assert Breaks(form, contactSalesIntent, isEmail, errs[0]);
    }
  }

  /** A field holding only white space is reported as missing, never as too long. */
  lemma BlankFieldIsRequiredNotTooLong(f: Field, raw: JsString)
    requires AllTrimmable(raw)
    ensures TrimmedLengthErrors(f, raw) == [Required(f)]
  {
    TrimEmptyIffBlank(raw);
  }

  /** A field whose trimmed value exceeds its bound is reported as too long, never as missing. */
  lemma OverlongFieldIsTooLongNotRequired(f: Field, raw: JsString)
    requires MaxLength(f).Some? && |Trim(raw)| > MaxLength(f).value
    ensures TrimmedLengthErrors(f, raw) == [TooLong(f)]
  {
  }

  /** The email format holds of the trimmed address whenever it holds of the
      address itself; the schema's address pattern admits no white space at
      all, so the real predicate has this property. */
  ghost predicate StableUnderTrim(isEmail: JsString -> bool) {
    forall s :: isEmail(s) ==> isEmail(Trim(s))
  }

  /** Validating the schema's own output gives that output back: the output is
      already trimmed and still within every bound. */
  lemma RevalidationIsStable(form: ContactSalesForm, contactSalesIntent: JsString, isEmail: JsString -> bool)
    requires StableUnderTrim(isEmail)
    requires Validate(form, contactSalesIntent, isEmail).Success?
    ensures var out := Validate(form, contactSalesIntent, isEmail).value;
      Validate(out, contactSalesIntent, isEmail) == Success(out)
  {
    var out := Trimmed(form);
    TrimIdempotent(form.companyName);
    TrimIdempotent(form.firstName);
    TrimIdempotent(form.lastName);
    TrimIdempotent(form.message);
    TrimIdempotent(form.phoneNumber);
    TrimIdempotent(form.workEmail);
    assert Trimmed(out) == out;
    assert Admits(out, contactSalesIntent, isEmail);
  }
}

=== FILE: invite_by_email_card.dfy ===
/** The card for inviting a person by email: which roles it offers, which of
    its controls are disabled, and when it clears itself. */
module InviteByEmailCard {
  import opened Wrappers
  import opened Memberships
  import opened JsStrings

  /** The card's props; the two optional flags default to false. */
  datatype CardProps = CardProps(
    currentUserIsOwner: bool,
    isInvitingByEmail: Option<bool>,
    organizationIsFull: Option<bool>,
    successEmail: Option<string>)

  datatype CardView = CardView(
    fieldsetDisabled: bool,
    roleTriggerDisabled: bool,
    submitDisabled: bool,
    offeredRoles: seq<Role>,
    defaultRole: Role,
    submitIntent: string,
    showsSpinner: bool)

  /** The roles the select lists: member and admin for everybody, then owner
      for owners only. */
  function OfferedRoles(currentUserIsOwner: bool): (roles: seq<Role>)
    ensures |roles| == (if currentUserIsOwner then 3 else 2) && roles[0] == Member
    ensures Member in roles && Admin in roles
    ensures Owner in roles <==> currentUserIsOwner
    ensures forall i, j :: 0 <= i < j < |roles| ==> roles[i] != roles[j]
  {
    [Member, Admin] + (if currentUserIsOwner then [Owner] else [])
  }

  /** `disabled`: an invitation is in flight or the organization has no free seat. */
  predicate Disabled(props: CardProps) {
    props.isInvitingByEmail.GetOr(false) || props.organizationIsFull.GetOr(false)
  }

  /** `EmailInviteCard`: the fieldset and the submit button are disabled
      exactly when an invitation is in flight or the organization is full; the
      role select is also disabled until the page is hydrated; the select
      starts on a role it offers; the button always submits the invite
      intent. */
  function Render(props: CardProps, hydrated: bool, inviteByEmailIntent: string): (v: CardView)
    ensures v.submitDisabled <==> props.isInvitingByEmail == Some(true) || props.organizationIsFull == Some(true)
    ensures v.fieldsetDisabled == v.submitDisabled
    ensures v.roleTriggerDisabled <==> !hydrated || v.submitDisabled
    ensures v.offeredRoles == OfferedRoles(props.currentUserIsOwner)
    ensures v.defaultRole == Member && v.defaultRole in v.offeredRoles
    ensures Owner in v.offeredRoles <==> props.currentUserIsOwner
    ensures v.submitIntent == inviteByEmailIntent
    ensures v.showsSpinner ==> v.submitDisabled
  {
    var disabled := Disabled(props);
    CardView(
      disabled,
      !hydrated || disabled,
      disabled,
      OfferedRoles(props.currentUserIsOwner),
      Member,
      inviteByEmailIntent,
      props.isInvitingByEmail.GetOr(false))
  }

  /** Leaving an optional flag out renders the same card as passing false. */
  lemma AbsentFlagsActAsFalse(props: CardProps, hydrated: bool, inviteByEmailIntent: string)
    requires props.isInvitingByEmail.None? || props.organizationIsFull.None?
    ensures var explicit := props.(
        isInvitingByEmail := Some(props.isInvitingByEmail.GetOr(false)),
        organizationIsFull := Some(props.organizationIsFull.GetOr(false)));
      Render(props, hydrated, inviteByEmailIntent) == Render(explicit, hydrated, inviteByEmailIntent)
  {
  }

  /** The effect that resets the form runs its reset exactly when
      `successEmail` is a non-empty string. */
  function ShouldResetForm(successEmail: Option<string>): (reset: bool)
    ensures reset <==> successEmail.Some? && successEmail.value != ""
  {
    successEmail.Some? && Truthy(successEmail.value)
  }
}

=== FILE: js_strings.dfy ===
/** The few pieces of JavaScript string semantics the model relies on:
    strings as UTF-16 code units, truthiness, and `String.prototype.trim`. */
module JsStrings {

  /** One UTF-16 code unit; a JavaScript string's `length` counts these. */
  newtype CodeUnit = u: int | 0 <= u < 0x1_0000

  type JsString = seq<CodeUnit>

  /** JavaScript truthiness of a string: only the empty string is falsy. */
  predicate Truthy<T>(s: seq<T>) {
    |s| > 0
  }

  /** The code points ECMAScript classifies as WhiteSpace (tab, vertical tab,
      form feed, the byte-order mark and every space separator) or as
      LineTerminator (line feed, carriage return, line and paragraph
      separators). `trim` strips exactly these; all lie in the Basic
      Multilingual Plane, so each is a single code unit. */
  predicate IsTrimmable(u: CodeUnit) {
    || u == 0x0009 || u == 0x000A || u == 0x000B || u == 0x000C || u == 0x000D
    || u == 0x0020 || u == 0x00A0 || u == 0x1680
    || (0x2000 <= u <= 0x200A)
    || u == 0x2028 || u == 0x2029 || u == 0x202F || u == 0x205F
    || u == 0x3000 || u == 0xFEFF
  }

  predicate AllTrimmable(s: JsString) {
    forall i :: 0 <= i < |s| ==> IsTrimmable(s[i])
  }

  /** `s` without its leading white space. */
  function TrimStart(s: JsString): (r: JsString)
    ensures |r| <= |s|
    decreases |s|
  {
    if |s| > 0 && IsTrimmable(s[0]) then TrimStart(s[1..]) else s
  }

  /** `s` without its trailing white space. */
  function TrimEnd(s: JsString): (r: JsString)
    ensures |r| <= |s|
    decreases |s|
  {
    if |s| > 0 && IsTrimmable(s[|s| - 1]) then TrimEnd(s[..|s| - 1]) else s
  }

  /** `TrimStart` cuts off a white-space prefix and keeps the rest, which does
      not start with white space. */
  lemma {:induction false} TrimStartCutsPrefix(s: JsString)
    ensures var r := TrimStart(s);
      && r == s[|s| - |r|..]
      && AllTrimmable(s[..|s| - |r|])
      && (|r| > 0 ==> !IsTrimmable(r[0]))
    decreases |s|
  {
    if |s| > 0 && IsTrimmable(s[0]) {
      TrimStartCutsPrefix(s[1..]);
      var r := TrimStart(s);
      assert r == TrimStart(s[1..]);
      assert s[..|s| - |r|] == [s[0]] + s[1..][..|s| - 1 - |r|];
    }
  }

  /** `TrimEnd` cuts off a white-space suffix and keeps the rest, which does
      not end with white space. */
  lemma {:induction false} TrimEndCutsSuffix(s: JsString)
    ensures var r := TrimEnd(s);
      && r == s[..|r|]
      && AllTrimmable(s[|r|..])
      && (|r| > 0 ==> !IsTrimmable(r[|r| - 1]))
    decreases |s|
  {
    if |s| > 0 && IsTrimmable(s[|s| - 1]) {
      TrimEndCutsSuffix(s[..|s| - 1]);
      var r := TrimEnd(s);
      assert r == TrimEnd(s[..|s| - 1]);
      assert s[|r|..] == s[..|s| - 1][|r|..] + [s[|s| - 1]];
    }
  }

  /** `String.prototype.trim`: `s` without leading and trailing white space. */
  function Trim(s: JsString): (r: JsString)
    ensures |r| <= |s|
  {
    TrimEnd(TrimStart(s))
  }

  /** What `trim` keeps: the longest infix of `s` that neither starts nor
      ends with white space, everything cut off on either side being white
      space. */
  lemma TrimKeepsInfix(s: JsString)
    ensures var r, a := Trim(s), |s| - |TrimStart(s)|;
      && a + |r| <= |s|
      && r == s[a..a + |r|]
      && AllTrimmable(s[..a])
      && AllTrimmable(s[a + |r|..])
      && (|r| > 0 ==> !IsTrimmable(r[0]) && !IsTrimmable(r[|r| - 1]))
  {
    TrimStartCutsPrefix(s);
    TrimEndCutsSuffix(TrimStart(s));
  }

  /** `trim` leaves nothing exactly of a string that is all white space. */
  lemma TrimEmptyIffBlank(s: JsString)
    ensures Trim(s) == [] <==> AllTrimmable(s)
  {
    TrimKeepsInfix(s);
    var a := |s| - |TrimStart(s)|;
    if Trim(s) == [] {
      assert s == s[..a] + s[a..];
    }
  }

  /** Trimming twice is trimming once. */
  lemma TrimIdempotent(s: JsString)
    ensures Trim(Trim(s)) == Trim(s)
  {
    TrimKeepsInfix(s);
  }
}

=== FILE: layout_helpers.dfy ===
/** Breadcrumb collection for the organization layout: every route match whose
    loader put a breadcrumb under the key "breadcrump" (the application's own
    spelling) contributes that breadcrumb, in the order of the matches. */
module LayoutHelpers {

  datatype Breadcrumb = Breadcrumb(title: string, to: string)

  /** What a loader's data holds under the key "breadcrump". */
  datatype CrumbSlot =
    | NoCrumbKey               // the key is not present
    | FalsyCrumb               // the key is present but holds `undefined` or `null`
    | Crumb(crumb: Breadcrumb) // the key holds a breadcrumb object, which is truthy

  /** A match's loader data: absent (`undefined`, `null` or another falsy
      value) or an object. */
  datatype LoaderData = NoLoaderData | LoaderData(slot: CrumbSlot)

  datatype RouteMatch = RouteMatch(id: string, loaderData: LoaderData)

  /** The match passes both guards of the loop: its loader data is truthy and
      has the key, and the value under the key is truthy. */
  predicate Contributes(m: RouteMatch) {
    m.loaderData.LoaderData? && m.loaderData.slot.Crumb?
  }

  function CrumbOf(m: RouteMatch): Breadcrumb
    requires Contributes(m)
  {
    m.loaderData.slot.crumb
  }

  /** Reference definition: the breadcrumbs of `ms`, built as the loop builds
      them, by appending the last match's contribution to those of the
      matches before it. */
  function Crumbs(ms: seq<RouteMatch>): (r: seq<Breadcrumb>)
    ensures |r| <= |ms|
  {
    if |ms| == 0 then []
    else Crumbs(ms[..|ms| - 1]) + (if Contributes(ms[|ms| - 1]) then [CrumbOf(ms[|ms| - 1])] else [])
  }

  /** The positions of the contributing matches, in increasing order. */
  function CrumbPositions(ms: seq<RouteMatch>): seq<nat> {
    if |ms| == 0 then []
    else CrumbPositions(ms[..|ms| - 1]) + (if Contributes(ms[|ms| - 1]) then [|ms| - 1] else [])
  }

  /** The breadcrumbs are exactly those of the contributing matches, in the
      order of the matches: the k-th breadcrumb comes from the k-th
      contributing position, the positions strictly increase, and every
      contributing match has its position among them. */
  lemma {:induction false} CrumbsFollowMatches(ms: seq<RouteMatch>)
    ensures |CrumbPositions(ms)| == |Crumbs(ms)|
    ensures forall k :: 0 <= k < |CrumbPositions(ms)| ==>
      && CrumbPositions(ms)[k] < |ms|
      && Contributes(ms[CrumbPositions(ms)[k]])
      && Crumbs(ms)[k] == CrumbOf(ms[CrumbPositions(ms)[k]])
    ensures forall k, l :: 0 <= k < l < |CrumbPositions(ms)| ==> CrumbPositions(ms)[k] < CrumbPositions(ms)[l]
    ensures forall i :: 0 <= i < |ms| && Contributes(ms[i]) ==> i in CrumbPositions(ms)
  {
    if |ms| > 0 {
      var init := ms[..|ms| - 1];
      CrumbsFollowMatches(init);
      assert forall i :: 0 <= i < |init| ==> init[i] == ms[i];
      var ps := CrumbPositions(ms);
      assert forall k :: 0 <= k < |CrumbPositions(init)| ==> ps[k] == CrumbPositions(init)[k];
    }
  }

  /** A breadcrumb is collected exactly when some match contributes it. */
  lemma CollectedIffContributed(ms: seq<RouteMatch>, b: Breadcrumb)
    ensures b in Crumbs(ms) <==> exists i :: 0 <= i < |ms| && Contributes(ms[i]) && CrumbOf(ms[i]) == b
  {
    CrumbsFollowMatches(ms);
    var r, ps := Crumbs(ms), CrumbPositions(ms);
    if b in r {
      var k :| 0 <= k < |r| && r[k] == b;
      assert Contributes(ms[ps[k]]) && CrumbOf(ms[ps[k]]) == b;
    }
    if i :| 0 <= i < |ms| && Contributes(ms[i]) && CrumbOf(ms[i]) == b {
      var k :| 0 <= k < |ps| && ps[k] == i;
      assert r[k] == b;
    }
  }

  /** Collecting over a concatenation collects over each part in turn. */
  lemma {:induction false} CrumbsDistribute(a: seq<RouteMatch>, b: seq<RouteMatch>)
    ensures Crumbs(a + b) == Crumbs(a) + Crumbs(b)
    decreases |b|
  {
    if |b| == 0 {
      assert a + b == a;
    } else {
      var ab := a + b;
      var last := b[|b| - 1];
      var tail := if Contributes(last) then [CrumbOf(last)] else [];
      assert ab[..|ab| - 1] == a + b[..|b| - 1];
      assert ab[|ab| - 1] == last;
      assert Crumbs(ab) == Crumbs(a + b[..|b| - 1]) + tail;
      assert Crumbs(b) == Crumbs(b[..|b| - 1]) + tail;
      CrumbsDistribute(a, b[..|b| - 1]);
      assert Crumbs(ab) == Crumbs(a) + Crumbs(b[..|b| - 1]) + tail;
    }
  }

  /** `findBreadcrumbs`: walks the matches once, pushing the breadcrumb of
      each contributing match. The result is the reference collection, so by
      `CrumbsFollowMatches` and `CollectedIffContributed` it holds exactly the
      contributed breadcrumbs in match order; it never holds more breadcrumbs
      than there are matches. */
  method FindBreadcrumbs(matches: seq<RouteMatch>) returns (breadcrumbs: seq<Breadcrumb>)
    ensures breadcrumbs == Crumbs(matches)
    ensures |breadcrumbs| <= |matches|
    ensures |matches| == 0 ==> breadcrumbs == []
  {
    breadcrumbs := [];
    var i := 0;
    while i < |matches|
      invariant 0 <= i <= |matches|
      invariant breadcrumbs == Crumbs(matches[..i])
    {
      var m := matches[i];
      if m.loaderData.LoaderData? && !m.loaderData.slot.NoCrumbKey? {
        var slot := m.loaderData.slot;
        if slot.Crumb? {
          breadcrumbs := breadcrumbs + [slot.crumb];
        }
      }
      assert matches[..i + 1][..i] == matches[..i];
      i := i + 1;
    }
    assert matches[..i] == matches;
  }
}

=== FILE: memberships.dfy ===
/** Organization membership roles, and the gate the billing routes put on
    them. */
module Memberships {

  datatype Role = Member | Admin | Owner

  /** How a route loader answers: with its page data, or with a not-found
      response. */
  datatype LoaderOutcome = NotFound | PageData

  /** The billing success route's loader: plain members get a not-found
      response, admins and owners get the page. */
  function BillingSuccessLoader(role: Role): (o: LoaderOutcome)
    ensures o == NotFound <==> role == Member
  {
    if role == Member then NotFound else PageData
  }
}

=== FILE: nav_group.dfy ===
/** The sidebar navigation group: a list of items, each either a link or a
    collapsible group of sub-links. Links are active by the routing library's
    case-insensitive rule; a group is open and highlighted when one of its
    sub-items' URLs equals the current path exactly. */
module NavGroup {
  import opened RouteMatching

  datatype SubItem = SubItem(title: string, url: string)

  /** An item is a group exactly when it carries sub-items; otherwise it is a
      link to its own URL. */
  datatype NavItem =
    | Leaf(title: string, url: string)
    | Group(title: string, items: seq<SubItem>)

  datatype SubEntry = SubEntry(title: string, url: string, isActive: bool)

  /** What one item renders as. */
  datatype Entry =
    | LinkEntry(title: string, url: string, isActive: bool)
    | CollapsibleEntry(title: string, defaultOpen: bool, isActive: bool, subEntries: seq<SubEntry>)

  /** `isParentActive`: some sub-item's URL equals the current path,
      character for character. */
  function IsParentActive(subs: seq<SubItem>, pathname: string): (r: bool)
    ensures r <==> exists i :: 0 <= i < |subs| && subs[i].url == pathname
  {
    |subs| > 0 && (subs[0].url == pathname || IsParentActive(subs[1..], pathname))
  }

  /** A parent-active group always has an active sub-link: an equal path is
      equal up to case. */
  lemma ParentActiveImpliesSomeChildActive(subs: seq<SubItem>, pathname: string)
    ensures IsParentActive(subs, pathname) ==>
      exists i :: 0 <= i < |subs| && NavLinkActive(pathname, subs[i].url, true)
  {
    if IsParentActive(subs, pathname) {
      var i :| 0 <= i < |subs| && subs[i].url == pathname;
      assert NavLinkActive(pathname, subs[i].url, true);
    }
  }

  /** The converse fails: sub-links ignore case, the parent test does not, so
      at "/A" the sub-link to "/a" is active while its group is neither
      highlighted nor opened. */
  lemma ParentMissesCaseVariantOfChild()
    ensures var subs := [SubItem("x", "/a")];
      NavLinkActive("/A", subs[0].url, true) && !IsParentActive(subs, "/A")
  {
    assert Lower("/A") == ['/', LowerChar('A')];
    assert Lower("/a") == ['/', LowerChar('a')];
  }

  /** The parent test the sub-links call for: some sub-item's URL equals the
      current path up to case, exactly as the sub-links themselves match. */
  function ParentActiveIgnoringCase(subs: seq<SubItem>, pathname: string): (r: bool)
    ensures r <==> exists i :: 0 <= i < |subs| && NavLinkActive(pathname, subs[i].url, true)
  {
    |subs| > 0 && (Lower(subs[0].url) == Lower(pathname) || ParentActiveIgnoringCase(subs[1..], pathname))
  }

  /** The two parent tests agree wherever the path and the sub-item URLs are
      already lower case, and the written test never highlights a group the
      intended one would not. */
  lemma {:induction false} ParentTestsAgreeOnLowerCase(subs: seq<SubItem>, pathname: string)
    ensures IsParentActive(subs, pathname) ==> ParentActiveIgnoringCase(subs, pathname)
    ensures Lower(pathname) == pathname && (forall i :: 0 <= i < |subs| ==> Lower(subs[i].url) == subs[i].url) ==>
      (IsParentActive(subs, pathname) <==> ParentActiveIgnoringCase(subs, pathname))
    decreases |subs|
  {
    if |subs| > 0 {
      ParentTestsAgreeOnLowerCase(subs[1..], pathname);
      assert forall i :: 0 <= i < |subs[1..]| ==> subs[1..][i] == subs[i + 1];
    }
  }

  function RenderSubItem(sub: SubItem, pathname: string): SubEntry {
    SubEntry(sub.title, sub.url, NavLinkActive(pathname, sub.url, true))
  }

  /** One item: a group becomes a collapsible entry whose initial openness and
      highlight are both the parent-active value and whose sub-entries are
      the sub-items as exact (`end`) links; a link stays a link to its own
      URL, active also on the pages below it. A highlighted group
      always has an active sub-entry, though not the other way round (see
      `ParentMissesCaseVariantOfChild`). */
  function RenderItem(item: NavItem, pathname: string): (e: Entry)
    ensures e.title == item.title
    ensures e.LinkEntry? <==> item.Leaf?
    ensures e.LinkEntry? ==> e.url == item.url && e.isActive == NavLinkActive(pathname, item.url, false)
    ensures e.CollapsibleEntry? ==>
      && e.defaultOpen == e.isActive
      && (e.isActive <==> exists i :: 0 <= i < |item.items| && item.items[i].url == pathname)
      && |e.subEntries| == |item.items|
      && (forall i :: 0 <= i < |item.items| ==>
            e.subEntries[i] == SubEntry(item.items[i].title, item.items[i].url, NavLinkActive(pathname, item.items[i].url, true)))
    ensures item.Group? && item.items == [] ==> !e.isActive
    ensures e.CollapsibleEntry? && e.isActive ==>
      ParentActiveIgnoringCase(item.items, pathname)
      && exists i :: 0 <= i < |e.subEntries| && e.subEntries[i].isActive
  {
    match item
    case Group(title, subs) =>
      var active := IsParentActive(subs, pathname);
      ParentTestsAgreeOnLowerCase(subs, pathname);
      CollapsibleEntry(title, active, active, seq(|subs|, i requires 0 <= i < |subs| => RenderSubItem(subs[i], pathname)))
    case Leaf(title, url) =>
      LinkEntry(title, url, NavLinkActive(pathname, url, false))
  }

  /** `NavGroup`: one entry per item, in the order of the items. */
  function Render(items: seq<NavItem>, pathname: string): (es: seq<Entry>)
    ensures |es| == |items|
    ensures forall i :: 0 <= i < |items| ==> es[i].title == items[i].title && (es[i].LinkEntry? <==> items[i].Leaf?)
  {
    seq(|items|, i requires 0 <= i < |items| => RenderItem(items[i], pathname))
  }
}

=== FILE: route_matching.dfy ===
/** How the routing library decides that the current path matches a link or a
    route pattern. By default both comparisons ignore letter case: the path and
    the target are lower-cased before they are compared. */
module RouteMatching {

  /** The lower case of one character; the ASCII letters are folded. */
  function LowerChar(c: char): char {
    if 'A' <= c <= 'Z' then (c as int + 32) as char else c
  }

  /** `String.prototype.toLowerCase`, character by character. */
  function Lower(s: string): string {
    seq(|s|, i requires 0 <= i < |s| => LowerChar(s[i]))
  }

  /** Lower-casing a lower-cased string changes nothing. */
  lemma LowerIdempotent(s: string)
    ensures Lower(Lower(s)) == Lower(s)
  {
    assert forall i :: 0 <= i < |s| ==> Lower(Lower(s))[i] == Lower(s)[i];
  }

  /** Whether a navigation link to `to` shows as active at `pathname`: the
      lower-cased path equals the lower-cased target, or, unless the link
      demands an exact match (`end`), continues it with a further
      `/`-separated segment. A trailing slash of the target is not required
      of the path. */
  predicate NavLinkActive(pathname: string, to: string, end: bool) {
    var p, t := Lower(pathname), Lower(to);
    var slashAt := if t != "/" && |t| > 0 && t[|t| - 1] == '/' then |t| - 1 else |t|;
    || p == t
    || (!end && t <= p && slashAt < |p| && p[slashAt] == '/')
  }

  /** `useMatch` of a pattern without parameters, matched to its end: the
      lower-cased path is the lower-cased pattern followed by nothing but
      slashes. */
  predicate MatchesToEnd(pathname: string, pattern: string) {
    var p, t := Lower(pathname), Lower(pattern);
    t <= p && forall i :: |t| <= i < |p| ==> p[i] == '/'
  }

  /** Neither rule can tell a path from its lower-cased form. */
  lemma MatchingIgnoresCase(pathname: string, to: string, end: bool)
    ensures NavLinkActive(pathname, to, end) <==> NavLinkActive(Lower(pathname), to, end)
    ensures MatchesToEnd(pathname, to) <==> MatchesToEnd(Lower(pathname), to)
  {
    LowerIdempotent(pathname);
  }

  /** An exact link is active exactly when the two paths agree up to case. */
  lemma ExactLinkActiveIffSameFolded(pathname: string, to: string)
    ensures NavLinkActive(pathname, to, true) <==> Lower(pathname) == Lower(to)
  {
  }
}

=== FILE: settings_sidebar.dfy ===
/** The organization settings sidebar: links to the settings sections a
    member's role may visit, taking the full width when the settings index
    itself is shown. */
module SettingsSidebar {
  import opened Wrappers
  import opened Memberships
  import NavGroup
  import RouteMatching

  datatype Section = General | Members | Billing

  /** The last path segment of a section's page. */
  function Segment(s: Section): string {
    match s
    case General => "general"
    case Members => "members"
    case Billing => "billing"
  }

  /** The translation key of a section's link title. */
  function TitleKey(s: Section): string {
    match s
    case General => "general"
    case Members => "teamMembers"
    case Billing => "billing"
  }

  /** `/organizations/:organizationSlug/settings`, with the slug filled in. */
  function SettingsIndexUrl(slug: string): string {
    "/organizations/" + slug + "/settings"
  }

  /** `/organizations/:organizationSlug/settings/<section>`. */
  function SectionUrl(slug: string, s: Section): string {
    SettingsIndexUrl(slug) + "/" + Segment(s)
  }

  /** Reads a section back from a URL under the organization's settings. */
  function ParseSectionUrl(slug: string, url: string): Option<Section> {
    var prefix := SettingsIndexUrl(slug) + "/";
    if prefix <= url then
      var rest := url[|prefix|..];
      if rest == "general" then Some(General)
      else if rest == "members" then Some(Members)
      else if rest == "billing" then Some(Billing)
      else None
    else None
  }

  /** Section URLs and `ParseSectionUrl` are inverse: every section URL
      reads back as its section, and every URL that reads as a section is
      that section's URL. */
  lemma SectionUrlRoundTrip(slug: string, s: Section, url: string)
    ensures ParseSectionUrl(slug, SectionUrl(slug, s)) == Some(s)
    ensures ParseSectionUrl(slug, url) == Some(s) ==> url == SectionUrl(slug, s)
  {
    var prefix := SettingsIndexUrl(slug) + "/";
    assert SectionUrl(slug, s) == prefix + Segment(s);
    assert (prefix + Segment(s))[|prefix|..] == Segment(s);
    if ParseSectionUrl(slug, url) == Some(s) {
      assert url == prefix + url[|prefix|..];
    }
  }

  /** The sections listed for a role: general and team members always, in
      that order, then billing for everybody but plain members. */
  function Sections(role: Role): (r: seq<Section>)
    ensures |r| == (if role == Member then 2 else 3)
    ensures r[0] == General && r[1] == Members
    ensures Billing in r <==> role != Member
  {
    [General, Members] + (if role != Member then [Billing] else [])
  }

  /** The sidebar offers billing exactly to the roles the billing success
      route serves its page to. */
  lemma BillingListedIffBillingRouteServed(role: Role)
    ensures Billing in Sections(role) <==> BillingSuccessLoader(role) == PageData
  {
  }

  /** `useMatch` on the settings index: up to case, the path is the index URL
      followed by nothing but slashes. */
  predicate OnSettingsIndex(pathname: string, slug: string) {
    RouteMatching.MatchesToEnd(pathname, SettingsIndexUrl(slug))
  }

  datatype Sidebar = Sidebar(fullWidth: bool, items: seq<NavGroup.NavItem>)

  /** `SettingsSidebar`: full width exactly on the settings index; one link per
      listed section, titled by the section and pointing at that section's
      page of this organization. */
  function SettingsSidebar(slug: string, role: Role, pathname: string): (v: Sidebar)
    ensures v.fullWidth <==> OnSettingsIndex(pathname, slug)
    ensures |v.items| == |Sections(role)|
    ensures forall i :: 0 <= i < |v.items| ==>
      && v.items[i].Leaf?
      && v.items[i].title == TitleKey(Sections(role)[i])
      && ParseSectionUrl(slug, v.items[i].url) == Some(Sections(role)[i])
  {
    var sections := Sections(role);
    var items := seq(|sections|, i requires 0 <= i < |sections| =>
      NavGroup.Leaf(TitleKey(sections[i]), SectionUrl(slug, sections[i])));
    forall i | 0 <= i < |items|
      ensures ParseSectionUrl(slug, items[i].url) == Some(sections[i])
    {
      SectionUrlRoundTrip(slug, sections[i], items[i].url);
    }
    Sidebar(OnSettingsIndex(pathname, slug), items)
  }

  /** The full-width layout does not depend on letter case in the path. */
  lemma FullWidthIgnoresCase(slug: string, role: Role, pathname: string)
    ensures SettingsSidebar(slug, role, pathname).fullWidth ==
      SettingsSidebar(slug, role, RouteMatching.Lower(pathname)).fullWidth
  {
    RouteMatching.MatchingIgnoresCase(pathname, SettingsIndexUrl(slug), true);
  }

  /** A section's own page is never taken for the settings index. */
  lemma SectionPageIsNotIndex(slug: string, s: Section)
    ensures !OnSettingsIndex(SectionUrl(slug, s), slug)
  {
    var index := SettingsIndexUrl(slug);
    var url := SectionUrl(slug, s);
    assert url[|index| + 1] == Segment(s)[0];
    assert RouteMatching.Lower(url)[|index| + 1] == RouteMatching.LowerChar(Segment(s)[0]);
  }

  /** At a section's page, the sidebar link of section `t` is active exactly
      when `t` is that section: all section URLs of one organization have the
      same length and end in different lower-case letters. */
  lemma SectionLinkActiveIffSame(slug: string, s: Section, t: Section)
    ensures RouteMatching.NavLinkActive(SectionUrl(slug, s), SectionUrl(slug, t), false) <==> s == t
  {
    var p, to := SectionUrl(slug, s), SectionUrl(slug, t);
    var lp, lt := RouteMatching.Lower(p), RouteMatching.Lower(to);
    assert |p| == |to|;
    assert lt[|to| - 1] == RouteMatching.LowerChar(Segment(t)[6]);
    assert lp[|p| - 1] == RouteMatching.LowerChar(Segment(s)[6]);
  }

  /** On a section's page, the rendered sidebar highlights exactly the link
      of that section. */
  lemma HighlightsCurrentSection(slug: string, role: Role, s: Section)
    ensures var es := NavGroup.Render(SettingsSidebar(slug, role, SectionUrl(slug, s)).items, SectionUrl(slug, s));
      forall i :: 0 <= i < |es| ==> (es[i].isActive <==> Sections(role)[i] == s)
  {
    var pathname := SectionUrl(slug, s);
    var items := SettingsSidebar(slug, role, pathname).items;
    var es := NavGroup.Render(items, pathname);
    forall i | 0 <= i < |es|
      ensures es[i].isActive <==> Sections(role)[i] == s
    {
      var t := Sections(role)[i];
      assert items[i] == NavGroup.Leaf(TitleKey(t), SectionUrl(slug, t));
      assert es[i] == NavGroup.RenderItem(items[i], pathname);
      SectionLinkActiveIffSame(slug, s, t);
    }
  }
}

=== FILE: wrappers.dfy ===
/** Optional values and results used across the model: a result is either a
    value or an error. */
module Wrappers {

  /** A value that may be missing (a JavaScript `undefined` or `null`). */
  datatype Option<+T> = None | Some(value: T) {

    /** The wrapped value, or `default` when there is none. */
    function GetOr(default: T): T {
      match this
      case Some(v) => v
      case None => default
    }
  }

  /** Either a value or an error. */
  datatype Result<+R, +E> = Success(value: R) | Failure(error: E)
}
